=== FILE: README.md ===
# Voice sampler session model

A Dafny model of the two session controllers of the voice sampler. The sampler turns a text phrase into speech through a remote text-to-speech service, plays the result, and lets the user regenerate, retune and save it.

- **Terminal session** (`main()` in main.py). This is a menu-driven loop over the phrase, the current voice id, the settings record (stability, similarity boost, style, speaker boost), the generation counter and the staged clip. `Terminal.Step` is one transition per answer the program waits for. That answer is a line typed at a prompt, a number typed at a settings prompt, the outcome of a synthesis attempt, the voice catalogue, or the outcome of a replay. The phase of the session says which prompt is open.
- **Web page** (app.py). This covers the catalogue turned into a label → voice-id map, the slider record, and the Generate/Regenerate and Save handlers acting on the page's session state (`audio_data`, `last_phrase`).

The synthesis provider, the voice catalogue, the audio player and the recordings directory are not code this model can see:
- A synthesis attempt is an `Attempt` outcome supplied as input.
- A catalogue fetch is an `Option<seq<Voice>>`.
- A replay is a `bool`.
- The recordings directory is a map from file name to bytes (`Recordings.Store`).

Settings are `real`s. Clamping with `min`/`max` is exact on them.

Modules:
- `Common`: `Option`, bytes, audio.
- `Text`: `strip`, `lower` and digit strings, restricted to ASCII.
- `Recordings`: the `recordings/<name>.mp3` store.
- `Catalog`: voices and `select_voice`.
- `Tuning`: the terminal settings record and its clamping editor.
- `Terminal`: the state machine.
- `TerminalProperties`: end-to-end properties of the menu commands.
- `Web`: app.py.

Behaviour of the code worth knowing:
- The generation counter is reset to 0 by an accepted new phrase. The next attempt increments it to 1 before it runs.
- `v` regenerates immediately after a voice change. The web page waits for an explicit Generate click.
- A failed attempt in the terminal goes to a "Try again?" prompt. Anything but `y` ends the program.
- The clip is written to the staging file before it is played. A failed synthesis keeps the earlier staged clip. A playback failure has already replaced it. But the menu, and so `s`, opens only after a later attempt has staged and played its own clip, and a declined retry deletes the staged clip. `s` therefore always saves the clip that last played.
- `n` with an empty answer overwrites the phrase with the empty string. It is not a no-op.
- Neither front-end clamps speed. The terminal has no speed setting. On the web page, speed is bounded only by its slider, so `Web.SliderValues` is a subset type and not a clamp.
- No generated clip carries a record of the phrase, voice and settings that produced it.
- Several failures are uncaught exceptions in main.py, so they end the program (`Stopped(Crashed(..))`) instead of being recoverable:
  - a replay error under `p`;
  - a catalogue error under `v`;
  - non-numeric text at a settings prompt;
  - a missing staged file under `s`.

  `Terminal.Inv` and `TerminalProperties.StartedRunsAreSafe` show that the last of these cannot happen in a started session.

## Model

| member | source | states |
|---|---|---|
| Text.StripFacts | main.py:204 | `strip()` leaves no whitespace at either end, never lengthens, and yields the empty string exactly when the input is all whitespace |
| Text.TrimStartFacts | main.py:78 | leading whitespace removal keeps a suffix, drops only whitespace, and stops at the first non-whitespace character |
| Text.TrimEndFacts | main.py:78 | trailing whitespace removal keeps a prefix, drops only whitespace, and stops at the last non-whitespace character |
| Text.StripTight | main.py:226 | a string with no whitespace at either end is returned unchanged by `strip()` |
| Text.StripIdempotent | app.py:179-181 | stripping twice is the same as stripping once, so the stored `last_phrase` is already stripped |
| Text.StripPadded | main.py:78 | any amount of whitespace around a non-empty tight string is exactly what `strip()` removes |
| Text.LowerIsLetter | main.py:204 | after `lower()` a one-character answer equals a letter exactly when the typed text is that letter in either case |
| Text.NumeralRoundTrip | main.py:80-81 | `int()` of the decimal spelling of k is k |
| Recordings.FileNameInjective | main.py:219 | distinct take names never map to the same `<name>.mp3` key of the store |
| Recordings.Save | app.py:77-83 | saving writes the clip under the key `<name>.mp3`, adds only that key, and leaves every other key of the store as it was |
| Recordings.SaveOverwrites | app.py:81-82 | saving twice under one name keeps only the second clip, with no error |
| Recordings.SavesCommute | main.py:219-222 | saves under different names do not disturb each other's entry in the store, in either order |
| Catalog.CategoryOf | app.py:54 | a voice without a category attribute gets the category "unknown"; otherwise its own category is kept |
| Catalog.ChosenPosition | main.py:80-82 | a position is chosen exactly when the stripped answer is a digit string whose value k satisfies 1 ≤ k ≤ the number of voices, and the position is then k, leading zeros included |
| Catalog.SelectVoice | main.py:64-89 | the selected id is always the current voice or the id of a voice in the fetched list |
| Catalog.SelectByDigits | main.py:78-85 | any stripped digit string whose value k names a listed voice selects `voices[k-1]`, so `01` selects the first voice |
| Catalog.SelectByNumber | main.py:78-85 | typing the number k of a listed voice, with any surrounding whitespace, selects `voices[k-1]` |
| Catalog.SelectVoiceKeepsCurrent | main.py:80-89 | an empty, non-numeric, zero or too-large answer keeps the current voice |
| Catalog.SelectVoiceChanged | main.py:80-85 | a changed voice implies the stripped answer was a digit string naming a valid position, and the result is that voice's id |
| Tuning.Clamp | main.py:243 | the stored value lies in [0, 1]; it equals the input when the input is in range, 0 below the range and 1 above it |
| Tuning.Apply | main.py:241-251 | a blank answer leaves the record untouched; a number sets only that field, to its clamped value; speaker boost and validity are kept; non-numeric text is an uncaught error |
| Tuning.DefaultsValid | main.py:161-166 | the initial settings 0.5 / 0.75 / 0.0 with speaker boost on satisfy the [0, 1] invariant |
| Terminal.Step | main.py:168-266 | each field changes only in the phase that owns it; every attempt, successful or not, grows the counter by exactly one, and only a new phrase that is non-empty after `strip()` resets it; every attempt requests the current phrase, voice and settings under the new number; an attempt that produced audio stages it, whether or not playback then failed, and a failed synthesis keeps the staged clip; a played attempt opens the menu and any failure opens the retry prompt; regeneration follows only an `r` at the menu, a `y` at the retry prompt, a non-empty new phrase, a voice answer or the last settings prompt; saves write the staged clip; cleanup happens exactly on the two normal exits |
| Terminal.Start | main.py:140-168 | `--list-voices` lists and exits; arguments are joined unstripped; a prompted phrase is stripped and an empty one exits before any synthesis; a started session has counter 0, no staged clip, the default voice and settings |
| Terminal.StartEstablishesInv | main.py:157-168 | a started session satisfies the session invariant |
| Terminal.StepPreservesInv | main.py:170-266 | every transition keeps settings in [0, 1] with speaker boost on, and keeps a staged clip once the menu has been reached |
| Terminal.RunPreservesInv | main.py:170-266 | the session invariant holds after any feasible sequence of answers |
| TerminalProperties.ParseCommandLetters | main.py:203-266 | each command is chosen by its letter in either case with any padding and by nothing else; every other answer is unrecognised |
| TerminalProperties.RetryAnswerLetters | main.py:186-187 | only `y` or `Y`, with any padding, asks for another attempt |
| TerminalProperties.FirstAttemptIsOne | main.py:168-175 | the first attempt is generation 1 and requests the start-up phrase with the default voice and settings |
| TerminalProperties.NewPhraseRestartsNumbering | main.py:225-229 | an accepted new phrase resets the counter; the next attempt is generation 1 and sends the stripped phrase |
| TerminalProperties.RetryConsumesNumber | main.py:170-188 | a failed synthesis keeps the staged clip and consumes a number; after `y` the next attempt is the following number |
| TerminalProperties.PlayedThenRegenerate | main.py:170-208 | a played attempt counts, stages its clip and opens the menu; after `r` the next attempt is the following number |
| TerminalProperties.PlaybackFailureRestages | main.py:176-188 | a playback failure has already staged the new clip when the retry prompt opens |
| TerminalProperties.NoMenuWithoutPlay | main.py:170-200 | from the retry prompt or the top of the loop, no sequence of answers without a successfully played attempt reaches the menu; the session stays between attempts and the retry prompt, or stops |
| TerminalProperties.LatestTakeIsSaved | main.py:176-223 | `s` after a played attempt with a non-empty name saves that attempt's clip |
| TerminalProperties.DeclinedRetryEnds | main.py:184-190 | after a failure any answer but `y` ends the loop with cleanup and changes nothing else |
| TerminalProperties.QuitEnds | main.py:257-263 | `q` ends the session at once with cleanup |
| TerminalProperties.PlayAgainKeepsSession | main.py:210-212 | `p` replays and returns to the menu with the session exactly as before; a player error is uncaught |
| TerminalProperties.SaveKeepsSession | main.py:214-223 | `s` returns to the menu with the session exactly as before; a non-empty stripped name writes the staged clip to `<name>.mp3`, an empty one writes nothing |
| TerminalProperties.UnrecognisedKeepsSession | main.py:265-266 | unrecognised input only warns; the menu stays open and nothing changes |
| TerminalProperties.RegenerateLeavesMenu | main.py:206-208 | `r` starts a new attempt and changes nothing else |
| TerminalProperties.EmptyNewPhrase | main.py:225-230 | `n` with an empty answer sets the phrase to "", keeps the counter and the menu, and a following `r` requests the empty phrase |
| TerminalProperties.ChangeVoiceRegenerates | main.py:232-235 | `v` fetches the catalogue and always regenerates, with the selected voice, or with the same one when the answer is blank; a catalogue error is uncaught |
| TerminalProperties.EditRegenerates | main.py:237-255 | `e` stores each typed number clamped into [0, 1], keeps each blank field, keeps speaker boost, and always regenerates, even when every answer was blank |
| TerminalProperties.NonNumericCrashes | main.py:241-251 | text that `float()` rejects ends the program at that prompt |
| TerminalProperties.StartedRunsAreSafe | main.py:161-266 | in any session reachable from start-up the settings stay in [0, 1] and saving never reads a missing staged file |
| Web.Entries | app.py:50-54 | the catalogue has one `(voice_id, name, category)` row per provider voice, in order; a missing category becomes "unknown" |
| Web.Options | app.py:95 | every label `"name (category)"` is a key and every key is some row's label |
| Web.OptionsLastWins | app.py:95 | a label shared by several rows maps to the id of the last of them |
| Web.DistinctLabelsPickTheirVoice | app.py:95 | with distinct labels every row's label maps to its own id |
| Web.LaterDuplicateWins | app.py:95 | of two rows with the same label, the later one's id is the one picked |
| Web.OnGenerate | app.py:164-183 | a blank phrase only warns and sends nothing; otherwise the stripped phrase is sent with the picked voice and in-range sliders; on success the clip and stripped phrase are stored together; on failure neither changes |
| Web.OnSave | app.py:201-207 | a non-empty stripped name writes the current clip to `recordings/<name>.mp3` through `save_recording` (Recordings.Save); a blank name writes nothing and only warns |
| Web.StartedPagesAreSafe | app.py:164-207 | from the page as first loaded, with no clip and no phrase, every sequence of offered actions keeps clip and phrase paired, the phrase stripped and non-empty, and every earlier recording |
| Web.FailuresRetainAudio | app.py:164-207 | over any run of failed generations and save clicks the page keeps the clip and phrase of the last successful generation |
| Web.WebStepPreservesInv | app.py:164-207 | clip and phrase are present together, the phrase is stripped and non-empty, and no recording is removed by one action |
| Web.WebRunPreservesInv | app.py:164-207 | the page invariant holds, and saved recordings persist, over any sequence of actions the page offers |

## Left out

- Calls to the ElevenLabs client (`text_to_speech.convert`, `voices.get_all`) are network calls. In the terminal each becomes an outcome supplied to the transition. The fixed model id `eleven_multilingual_v2` and the fixed `use_speaker_boost=True` of app.py are passed through unchanged and are not modelled.
- On the web page a failing catalogue fetch (`get_voices` at app.py:92, outside any `try`) ends that rerun before either button handler runs, so it cannot change the page state. The model does not include it as an event; the page takes one fixed label → voice-id map.
- Audio playback through `afplay`, `aplay` or `winsound` is platform I/O. Its success or failure is an input.
- Creating and removing the temporary directory, and writing and copying files, are not modelled. Cleanup is an `Effect` and saving is an update of `Recordings.Store`. I/O errors while saving, which main.py does not catch, are not modelled. Neither is the partial temporary file left when the staging write fails; that case counts as `GenerationFailed`. The two front-ends save into different `recordings` directories (the working directory and the script's directory), so each gets its own store.
- Streamlit presentation, `st.cache_resource`, the 300-second `st.cache_data` lifetime of the voice list and the Refresh Voices button are framework caching with a wall clock.
- Loading credentials and the `.env` file is start-up plumbing. So is printing the catalogue for `--list-voices`, which is modelled only as `Launch.ListVoices`.
- Printed text is not modelled: the settings, the voice tables and the `:.2f` formatting.
- Tuning.Apply: `float()` parsing is abstracted into `Entry`. NaN and infinities do not exist among `real`s, so Python's `max(0.0, min(1.0, nan)) == 1.0` is not modelled.
- Text.StripFacts: `strip()`, `lower()` and `isdigit()`/`int()` are modelled on ASCII only. Python's Unicode whitespace, case mapping and digits are not modelled.
- Recordings.FileNameInjective: the store is keyed by the string `<name>.mp3`. pathlib's path joining is not modelled, so `a` and `./a` count as different files although they are one. Case-insensitive file systems are not modelled either, so `Take` and `take` also count as different files.
- Recordings.Save: an absolute name such as `/tmp/x` writes `/tmp/x.mp3` outside `recordings/`. A name with `..` escapes the directory too. The model keys the store by the string, so it cannot express either case. "Every other recording is left as it was" therefore holds per distinct path string, not per file on disk.
- Recordings.SavesCommute: two different name strings that resolve to one file on disk do not commute. They are not modelled, for the same reason as Recordings.Save.
- Catalog.SelectVoiceKeepsCurrent: `int()` in CPython 3.10.7 and later rejects a digit string longer than 4300 digits by default (`sys.int_max_str_digits`). main.py does not catch that error, so such an answer ends the program. The model treats every digit string as a number, so such an answer keeps the current voice, and the limit, its configuration and the resulting crash are not modelled.
- Web.Entries: a voice whose `category` attribute exists but is `None` would show as "None". Only an absent attribute is modelled, as `Option.None`.
- Web.SliderValues: the sliders' 0.05 step grid is not modelled, only their ranges.
- End-of-input and keyboard interrupts at a prompt are not modelled.

=== FILE: catalog.dfy ===
/**
 * The voice catalogue as the provider returns it, and the terminal's
 * numbered voice picker (`select_voice` in main.py).
 */
module Catalog {
  import opened Common
  import opened Text

  /** One voice of `voices.get_all()`; the provider may omit the category. */
  datatype Voice = Voice(voiceId: string, name: string, category: Option<string>)

  /** `getattr(voice, 'category', 'unknown')`. */
  function CategoryOf(v: Voice): (c: string)
    ensures v.category.None? ==> c == "unknown"
    ensures v.category.Some? ==> c == v.category.value
  {
    match v.category
    case Some(c) => c
    case None => "unknown"
  }

  ghost predicate Offers(voices: seq<Voice>, id: string) {
    exists i | 0 <= i < |voices| :: voices[i].voiceId == id
  }

  /** The 1-based position typed at the "Voice #" prompt, if the stripped
      answer is a digit string naming an existing voice. */
  function ChosenPosition(voices: seq<Voice>, choice: string): (k: Option<nat>)
    ensures k.Some? ==> 1 <= k.value <= |voices|
    ensures k.Some? ==> IsNumeral(Strip(choice)) && NumeralValue(Strip(choice)) == k.value
    ensures IsNumeral(Strip(choice)) && 1 <= NumeralValue(Strip(choice)) <= |voices| ==>
              k == Some(NumeralValue(Strip(choice)))
  {
    var c := Strip(choice);
    if c != "" && AllDigits(c) && 0 <= NumeralValue(c) - 1 < |voices| then Some(NumeralValue(c))
    else None
  }

  /** `select_voice`: the id of the voice at the typed position, otherwise
      the current voice. The answer is always the current voice or one the
      catalogue offers. */
  function SelectVoice(voices: seq<Voice>, current: string, choice: string): (r: string)
    ensures r == current || Offers(voices, r)
  {
    match ChosenPosition(voices, choice)
    case Some(k) => voices[k - 1].voiceId
    case None => current
  }

  /** Typing the number of a listed voice, with any surrounding whitespace,
      selects that voice. */
  lemma SelectByNumber(voices: seq<Voice>, current: string, k: nat, pre: string, post: string)
    requires 1 <= k <= |voices|
    requires AllSpace(pre) && AllSpace(post)
    ensures SelectVoice(voices, current, pre + Numeral(k) + post) == voices[k - 1].voiceId
  {
    var digits := Numeral(k);
    StripPadded(pre, digits, post);
    NumeralRoundTrip(k);
    ChosenNumeral(voices, pre + digits + post, k);
  }

  /** Any digit string naming a listed position selects that voice, leading
      zeros included: `int("01")` is 1. */
  lemma SelectByDigits(voices: seq<Voice>, current: string, choice: string)
    requires IsNumeral(Strip(choice)) && 1 <= NumeralValue(Strip(choice)) <= |voices|
    ensures SelectVoice(voices, current, choice) == voices[NumeralValue(Strip(choice)) - 1].voiceId
  {
  }

  lemma ChosenNumeral(voices: seq<Voice>, choice: string, k: nat)
    requires 1 <= k <= |voices|
    requires Strip(choice) == Numeral(k) && NumeralValue(Numeral(k)) == k
    ensures ChosenPosition(voices, choice) == Some(k)
  {
  }

  /** An empty answer, a non-numeric one, `0` and any number past the end of
      the list all keep the current voice. */
  lemma SelectVoiceKeepsCurrent(voices: seq<Voice>, current: string, choice: string)
    requires AllSpace(choice)
          || !AllDigits(Strip(choice))
          || (IsNumeral(Strip(choice)) && (NumeralValue(Strip(choice)) == 0 || NumeralValue(Strip(choice)) > |voices|))
    ensures SelectVoice(voices, current, choice) == current
  {
    StripFacts(choice);
  }

  /** Conversely, a changed voice can only come from a valid position. */
  lemma SelectVoiceChanged(voices: seq<Voice>, current: string, choice: string)
    requires SelectVoice(voices, current, choice) != current
    ensures IsNumeral(Strip(choice))
    ensures 1 <= NumeralValue(Strip(choice)) <= |voices|
    ensures SelectVoice(voices, current, choice) == voices[NumeralValue(Strip(choice)) - 1].voiceId
  {
  }
}

=== FILE: common.dfy ===
/** Shared vocabulary of both front-ends: optional values and audio bytes. */
module Common {

  /** A value that may be absent. */
  datatype Option<+T> = None | Some(value: T)

  newtype byte = x: int | 0 <= x < 256

  /** The bytes of one synthesised MP3 clip, as the provider streams them back. */
  type Audio = seq<byte>
}

=== FILE: recordings.dfy ===
/**
 * The `recordings` directory both front-ends save into, as an abstract map
 * from file name to the bytes written there.
 */
module Recordings {
  import opened Common

  type Store = map<string, Audio>

  const Extension: string := ".mp3"

  /** The file a take named `name` is written to: `<name>.mp3`. */
  function FileName(name: string): (r: string) {
    name + Extension
  }

  /** Distinct names never share a key of the store. */
  lemma FileNameInjective(a: string, b: string)
    requires FileName(a) == FileName(b)
    ensures a == b
  {
    assert |a| == |b|;
    assert a == FileName(a)[..|a|];
  }

  /** Writes `audio` under the key `<name>.mp3`, silently replacing an
      earlier entry of that name; every other key is left as it was. */
  function Save(store: Store, name: string, audio: Audio): (r: Store)
    ensures FileName(name) in r && r[FileName(name)] == audio
    ensures r.Keys == store.Keys + {FileName(name)}
    ensures forall f | f in store && f != FileName(name) :: r[f] == store[f]
  {
    store[FileName(name) := audio]
  }

  /** Saving twice under one name keeps only the second take. */
  lemma SaveOverwrites(store: Store, name: string, first: Audio, second: Audio)
    ensures Save(Save(store, name, first), name, second) == Save(store, name, second)
  {
  }

  /** Saves under different names do not disturb each other's entry. */
  lemma SavesCommute(store: Store, a: string, x: Audio, b: string, y: Audio)
    requires a != b
    ensures Save(Save(store, a, x), b, y) == Save(Save(store, b, y), a, x)
  {
    if FileName(a) == FileName(b) {
      FileNameInjective(a, b);
    }
  }
}

=== FILE: terminal.dfy ===
/**
 * The terminal session of main.py: the outer generate loop and the inner
 * options menu, as one transition per answer the program waits for.
 *
 * The program waits for four kinds of answers: a line typed at a prompt, a
 * number typed at a settings prompt, the outcome of a synthesis attempt
 * (provider call, staging write and playback together, as one `try`), the
 * voice catalogue, and the outcome of a replay. The phase of the session
 * says which prompt or call is open.
 */
module Terminal {
  import opened Common
  import opened Text
  import opened Catalog
  import opened Tuning
  import Recordings

  /** The voice a session starts with. */
  const DefaultVoiceId: string := "bIHbv24MWmeRgasZH58o"

  /** What one synthesis attempt sends to the provider, with the attempt's
      number as the player announces it ("generation #n"). */
  datatype Request = Request(generation: nat, text: string, voiceId: string, settings: Settings)

  /** The outcome of the outer loop's `try` block. */
  datatype Attempt =
    | GenerationFailed            // the provider call or the staging write raised
    | PlaybackFailed(audio: Audio) // audio staged, then the player raised
    | Played(audio: Audio)         // audio staged and played

  datatype Event =
    | Line(text: string)
    | Amount(entry: Entry)
    | Synthesis(attempt: Attempt)
    | VoiceList(voices: Option<seq<Voice>>)  // None: `voices.get_all()` raised
    | Playback(ok: bool)

  /** Exceptions main.py does not catch. */
  datatype Crash =
    | ReplayError        // `play_audio` under [p]
    | CatalogError       // `get_voices` under [v]
    | NotANumber         // `float(val)` under [e]
    | MissingStagedAudio // reading the staged file under [s]

  datatype Stop =
    | RetryDeclined  // loop left after a failed attempt, temporary files removed
    | QuitChosen     // [q]: temporary files removed, exit status 0
    | Crashed(crash: Crash)

  datatype Phase =
    | Generating               // top of the outer loop
    | RetryPrompt              // "Try again? [y/n]"
    | Menu                     // "Your choice:"
    | Replaying                // [p] playing the staged file
    | SavePrompt               // "Save as (filename without extension):"
    | PhrasePrompt             // "Enter new phrase:"
    | FetchingVoices           // [v] fetching the catalogue
    | VoicePrompt(voices: seq<Voice>) // "Voice #:"
    | SettingPrompt(field: Field)     // one of the three settings prompts
    | Stopped(how: Stop)

  datatype Session = Session(
    phrase: string,
    voiceId: string,
    settings: Settings,
    generation: nat,
    staged: Option<Audio>, // contents of the temporary output.mp3
    phase: Phase)

  /** The two warnings the menu prints without leaving it. */
  datatype Warning = InvalidChoice | NoPhraseEntered

  /** The observable side of one transition. */
  datatype Effect =
    | Silent
    | Synthesize(request: Request)
    | Replay
    | FetchVoices
    | Persist(name: string, audio: Audio)
    | Warn(warning: Warning)
    | Cleanup

  datatype Transition = Transition(next: Session, effect: Effect)

  datatype Command =
    | Regenerate | PlayAgain | SaveTake | NewPhrase | ChangeVoice | EditSettings | QuitSession | Unrecognised

  /** The command named by one letter. */
  function CommandOf(letter: char): (c: Command) {
    match letter
    case 'r' => Regenerate
    case 'p' => PlayAgain
    case 's' => SaveTake
    case 'n' => NewPhrase
    case 'v' => ChangeVoice
    case 'e' => EditSettings
    case 'q' => QuitSession
    case _ => Unrecognised
  }

  /** Menu answers are stripped and lower-cased before dispatch; only a
      single letter can name a command. */
  function ParseCommand(line: string): (c: Command) {
    var key := Lower(Strip(line));
    if |key| == 1 then CommandOf(key[0]) else Unrecognised
  }

  /** "Try again?" is answered yes only by `y` (either case, any padding). */
  predicate Affirmative(answer: string) {
    var key := Lower(Strip(answer));
    |key| == 1 && key[0] == 'y'
  }

  /** The phases entered only after a successful attempt reached the menu. */
  predicate PastFirstTake(p: Phase) {
    p.Menu? || p.Replaying? || p.SavePrompt? || p.PhrasePrompt?
    || p.FetchingVoices? || p.VoicePrompt? || p.SettingPrompt?
  }

  /** The kind of answer the program is waiting for in each phase. */
  predicate Awaits(p: Phase, e: Event) {
    match p
    case Generating => e.Synthesis?
    case Replaying => e.Playback?
    case FetchingVoices => e.VoiceList?
    case SettingPrompt(_) => e.Amount?
    case Stopped(_) => false
    case _ => e.Line?
  }

  /** The prompt that follows a settings prompt; after the last one the
      session regenerates. */
  function AfterSetting(f: Field): (p: Phase) {
    match f
    case Stability => SettingPrompt(SimilarityBoost)
    case SimilarityBoost => SettingPrompt(Style)
    case Style => Generating
  }

  /** One transition of the session. Each field changes only in the phase
      that owns it: the phrase at the new-phrase prompt, the voice at the
      voice prompt, the settings at the settings prompts, the staged audio on
      a synthesis that produced audio; the counter grows by one per attempt
      and is reset only by an accepted new phrase. */
  function Step(s: Session, e: Event): (t: Transition)
    requires Awaits(s.phase, e)
    ensures t.next.phrase != s.phrase ==> s.phase.PhrasePrompt?
    ensures t.next.voiceId != s.voiceId ==> s.phase.VoicePrompt?
    ensures t.next.settings != s.settings ==> s.phase.SettingPrompt?
    ensures t.next.generation != s.generation ==>
              (s.phase.Generating? && t.next.generation == s.generation + 1)
              || (s.phase.PhrasePrompt? && Strip(e.text) != "" && t.next.generation == 0)
    ensures t.next.staged != s.staged ==>
              s.phase.Generating? && !e.attempt.GenerationFailed? && t.next.staged == Some(e.attempt.audio)
    ensures s.phase.Generating? ==> t.next.generation == s.generation + 1
    ensures s.phase.Generating? && !e.attempt.GenerationFailed? ==> t.next.staged == Some(e.attempt.audio)
    ensures s.phase.Generating? ==> (t.next.phase == Menu <==> e.attempt.Played?)
    ensures s.phase.Generating? ==> (t.next.phase == RetryPrompt <==> !e.attempt.Played?)
    ensures t.effect.Synthesize? <==> s.phase.Generating?
    ensures s.phase.Generating? ==>
              t.effect.request == Request(s.generation + 1, s.phrase, s.voiceId, s.settings)
    ensures t.next.phase.Generating? ==>
              (s.phase.Menu? && ParseCommand(e.text) == Regenerate)
              || (s.phase.RetryPrompt? && Affirmative(e.text))
              || (s.phase.PhrasePrompt? && Strip(e.text) != "")
              || s.phase.VoicePrompt? || (s.phase.SettingPrompt? && s.phase.field == Style)
    ensures t.effect.Persist? ==> s.phase.SavePrompt? && Some(t.effect.audio) == s.staged
    ensures t.effect == Cleanup <==> t.next.phase.Stopped? && !t.next.phase.how.Crashed?
  {
    match s.phase
    case Generating => OnAttempt(s, e.attempt)
    case RetryPrompt => OnRetryAnswer(s, e.text)
    case Menu => OnCommand(s, ParseCommand(e.text))
    case Replaying => OnReplay(s, e.ok)
    case SavePrompt => OnSaveName(s, e.text)
    case PhrasePrompt => OnNewPhrase(s, e.text)
    case FetchingVoices => OnVoiceList(s, e.voices)
    case VoicePrompt(voices) => OnVoiceChoice(s, voices, e.text)
    case SettingPrompt(f) => OnSetting(s, f, e.entry)
    case Stopped(_) => Transition(s, Silent)
  }

  /** The outer loop's body: count the attempt, then synthesise, stage and
      play; the clip is staged before playback, so a player error still
      leaves it staged. */
  function OnAttempt(s: Session, a: Attempt): (t: Transition) {
    var n := s.generation + 1;
    var request := Synthesize(Request(n, s.phrase, s.voiceId, s.settings));
    match a
    case GenerationFailed =>
      Transition(s.(generation := n, phase := RetryPrompt), request)
    case PlaybackFailed(audio) =>
      Transition(s.(generation := n, staged := Some(audio), phase := RetryPrompt), request)
    case Played(audio) =>
      Transition(s.(generation := n, staged := Some(audio), phase := Menu), request)
  }

  function OnRetryAnswer(s: Session, answer: string): (t: Transition) {
    if Affirmative(answer) then Transition(s.(phase := Generating), Silent)
    else Transition(s.(phase := Stopped(RetryDeclined)), Cleanup)
  }

  function OnCommand(s: Session, c: Command): (t: Transition) {
    match c
    case Regenerate => Transition(s.(phase := Generating), Silent)
    case PlayAgain => Transition(s.(phase := Replaying), Replay)
    case SaveTake => Transition(s.(phase := SavePrompt), Silent)
    case NewPhrase => Transition(s.(phase := PhrasePrompt), Silent)
    case ChangeVoice => Transition(s.(phase := FetchingVoices), FetchVoices)
    case EditSettings => Transition(s.(phase := SettingPrompt(Stability)), Silent)
    case QuitSession => Transition(s.(phase := Stopped(QuitChosen)), Cleanup)
    case Unrecognised => Transition(s, Warn(InvalidChoice))
  }

  function OnReplay(s: Session, ok: bool): (t: Transition) {
    if ok then Transition(s.(phase := Menu), Silent)
    else Transition(s.(phase := Stopped(Crashed(ReplayError))), Silent)
  }

  /** An empty name saves nothing and shows no message. */
  function OnSaveName(s: Session, typed: string): (t: Transition) {
    var name := Strip(typed);
    if name == "" then Transition(s.(phase := Menu), Silent)
    else if s.staged.None? then Transition(s.(phase := Stopped(Crashed(MissingStagedAudio))), Silent)
    else Transition(s.(phase := Menu), Persist(name, s.staged.value))
  }

  /** The phrase is overwritten even when the answer is empty. */
  function OnNewPhrase(s: Session, typed: string): (t: Transition) {
    var phrase := Strip(typed);
    if phrase != "" then Transition(s.(phrase := phrase, generation := 0, phase := Generating), Silent)
    else Transition(s.(phrase := phrase, phase := Menu), Warn(NoPhraseEntered))
  }

  function OnVoiceList(s: Session, voices: Option<seq<Voice>>): (t: Transition) {
    match voices
    case Some(vs) => Transition(s.(phase := VoicePrompt(vs)), Silent)
    case None => Transition(s.(phase := Stopped(Crashed(CatalogError))), Silent)
  }

  /** The session regenerates whether or not the voice changed. */
  function OnVoiceChoice(s: Session, voices: seq<Voice>, choice: string): (t: Transition) {
    Transition(s.(voiceId := SelectVoice(voices, s.voiceId, choice), phase := Generating), Silent)
  }

  function OnSetting(s: Session, f: Field, e: Entry): (t: Transition) {
    match Apply(s.settings, f, e)
    case Some(settings) => Transition(s.(settings := settings, phase := AfterSetting(f)), Silent)
    case None => Transition(s.(phase := Stopped(Crashed(NotANumber))), Silent)
  }

  /** The files a transition adds to the recordings directory. */
  function Record(store: Recordings.Store, effect: Effect): (r: Recordings.Store)
    ensures effect.Persist? ==> r == Recordings.Save(store, effect.name, effect.audio)
    ensures !effect.Persist? ==> r == store
  {
    match effect
    case Persist(name, audio) => Recordings.Save(store, name, audio)
    case _ => store
  }

  /** How the program starts. */
  datatype Launch =
    | ListVoices        // `--list-voices`: print the catalogue and exit
    | NoPhrase          // prompted phrase empty: exit status 1
    | Begin(session: Session)

  /** `" ".join(parts)`. */
  function Join(parts: seq<string>): (r: string)
    decreases |parts|
  {
    if |parts| == 0 then ""
    else if |parts| == 1 then parts[0]
    else Join(parts[..|parts| - 1]) + " " + parts[|parts| - 1]
  }

  /** Start-up from the command-line arguments (without the program name)
      and, when there are none, the phrase typed at the prompt. Arguments
      are joined as given; a typed phrase is stripped and an empty one ends
      the program before any synthesis. */
  function Start(args: seq<string>, typed: string): (r: Launch)
    ensures |args| > 0 && args[0] == "--list-voices" ==> r == ListVoices
    ensures |args| == 0 ==> (r == NoPhrase <==> AllSpace(typed))
    ensures |args| == 0 && r.Begin? ==> r.session.phrase == Strip(typed) && r.session.phrase != ""
    ensures |args| > 0 && args[0] != "--list-voices" ==> r.Begin? && r.session.phrase == Join(args)
    ensures r.Begin? ==>
              r.session.phase == Generating && r.session.generation == 0 && r.session.staged == None
              && r.session.voiceId == DefaultVoiceId && r.session.settings == Defaults
  {
    if |args| > 0 && args[0] == "--list-voices" then ListVoices
    else if |args| > 0 then Begin(Session(Join(args), DefaultVoiceId, Defaults, 0, None, Generating))
    else
      var phrase := Strip(typed);
      StripFacts(typed);
      if phrase == "" then NoPhrase
      else Begin(Session(phrase, DefaultVoiceId, Defaults, 0, None, Generating))
  }

  /** Whether a sequence of answers is one the program could be given, each
      answering the prompt or call open at that point. */
  predicate Feasible(s: Session, es: seq<Event>)
    decreases |es|
  {
    |es| == 0 || (Awaits(s.phase, es[0]) && Feasible(Step(s, es[0]).next, es[1..]))
  }

  function Run(s: Session, es: seq<Event>): (r: Session)
    requires Feasible(s, es)
    decreases |es|
  {
    if |es| == 0 then s else Run(Step(s, es[0]).next, es[1..])
  }

  /** What every reachable session satisfies: settings within [0, 1] with
      speaker boost on, a staged clip whenever the menu has been reached, and
      hence never the crash of saving a clip that was not staged. */
  predicate Inv(s: Session) {
    && Valid(s.settings)
    && (PastFirstTake(s.phase) ==> s.staged.Some?)
    && s.phase != Stopped(Crashed(MissingStagedAudio))
  }

  lemma StartEstablishesInv(args: seq<string>, typed: string)
    requires Start(args, typed).Begin?
    ensures Inv(Start(args, typed).session)
  {
  }

  lemma StepPreservesInv(s: Session, e: Event)
    requires Inv(s) && Awaits(s.phase, e)
    ensures Inv(Step(s, e).next)
  {
    var next := Step(s, e).next;
    match s.phase {
      case SettingPrompt(f) =>
        var applied := Apply(s.settings, f, e.entry);
        if applied.Some? {
          assert next.settings == applied.value;
        }
      case SavePrompt =>
        assert next.phase == Menu;
      case _ =>
    }
  }

  /** Every session reachable from a started one satisfies `Inv`. */
  lemma {:induction false} RunPreservesInv(s: Session, es: seq<Event>)
    requires Inv(s) && Feasible(s, es)
    ensures Inv(Run(s, es))
    decreases |es|
  {
    if |es| > 0 {
      StepPreservesInv(s, es[0]);
      RunPreservesInv(Step(s, es[0]).next, es[1..]);
    }
  }
}

=== FILE: terminal_properties.dfy ===
/**
 * Properties of the terminal session that span several transitions: what
 * each menu command does end to end, and how attempts are numbered.
 */
module TerminalProperties {
  import opened Common
  import opened Text
  import opened Catalog
  import opened Tuning
  import opened Terminal
  import Recordings

  /** Each command is selected by its letter in either case, with any
      surrounding whitespace, and by nothing else. */
  lemma ParseCommandLetters(line: string)
    ensures ParseCommand(line) == Regenerate <==> Strip(line) in {"r", "R"}
    ensures ParseCommand(line) == PlayAgain <==> Strip(line) in {"p", "P"}
    ensures ParseCommand(line) == SaveTake <==> Strip(line) in {"s", "S"}
    ensures ParseCommand(line) == NewPhrase <==> Strip(line) in {"n", "N"}
    ensures ParseCommand(line) == ChangeVoice <==> Strip(line) in {"v", "V"}
    ensures ParseCommand(line) == EditSettings <==> Strip(line) in {"e", "E"}
    ensures ParseCommand(line) == QuitSession <==> Strip(line) in {"q", "Q"}
    ensures ParseCommand(line) == Unrecognised <==>
              Strip(line) !in {"r", "R", "p", "P", "s", "S", "n", "N", "v", "V", "e", "E", "q", "Q"}
  {
    var key := Strip(line);
    LowerIsLetter(key, 'r');
    LowerIsLetter(key, 'p');
    LowerIsLetter(key, 's');
    LowerIsLetter(key, 'n');
    LowerIsLetter(key, 'v');
    LowerIsLetter(key, 'e');
    LowerIsLetter(key, 'q');
  }

  /** Only `y` or `Y`, with any surrounding whitespace, asks for another
      attempt. */
  lemma RetryAnswerLetters(answer: string)
    ensures Affirmative(answer) <==> Strip(answer) in {"y", "Y"}
  {
    LowerIsLetter(Strip(answer), 'y');
  }

  /** The first attempt of a session is announced as generation 1 and asks
      for the start-up phrase with the default voice and settings. */
  lemma FirstAttemptIsOne(args: seq<string>, typed: string, a: Attempt)
    requires Start(args, typed).Begin?
    ensures var s := Start(args, typed).session;
            Step(s, Synthesis(a)).effect == Synthesize(Request(1, s.phrase, DefaultVoiceId, Defaults))
  {
  }

  /** An accepted new phrase restarts the numbering: the next attempt is
      generation 1 again and sends the stripped new phrase. */
  lemma NewPhraseRestartsNumbering(s: Session, command: string, text: string, a: Attempt)
    requires s.phase == Menu && ParseCommand(command) == NewPhrase
    requires Strip(text) != ""
    ensures var s1 := Step(s, Line(command)).next;
            var s2 := Step(s1, Line(text)).next;
            && s1.phase == PhrasePrompt
            && s2 == s.(phrase := Strip(text), generation := 0, phase := Generating)
            && Step(s2, Synthesis(a)).effect == Synthesize(Request(1, Strip(text), s.voiceId, s.settings))
  {
  }

  /** A failed attempt keeps the staged clip, still consumes a number, and a
      `y` at the retry prompt makes the next attempt the number after it. */
  lemma RetryConsumesNumber(s: Session, answer: string, a: Attempt)
    requires s.phase == Generating && Affirmative(answer)
    ensures var s1 := Step(s, Synthesis(GenerationFailed)).next;
            var s2 := Step(s1, Line(answer)).next;
            && s1 == s.(generation := s.generation + 1, phase := RetryPrompt)
            && s2 == s.(generation := s.generation + 1)
            && Step(s2, Synthesis(a)).effect.request.generation == s.generation + 2
  {
  }

  /** A played attempt counts, stages its clip and opens the menu; an `r`
      there makes the next attempt the number after it. */
  lemma PlayedThenRegenerate(s: Session, clip: Audio, command: string, a: Attempt)
    requires s.phase == Generating && ParseCommand(command) == Regenerate
    ensures var s1 := Step(s, Synthesis(Played(clip))).next;
            var s2 := Step(s1, Line(command)).next;
            && s1 == s.(generation := s.generation + 1, staged := Some(clip), phase := Menu)
            && Step(s2, Synthesis(a)).effect.request.generation == s.generation + 2
  {
  }

  /** A playback failure comes after the clip was staged, so the clip is
      replaced even though the retry prompt opens. */
  lemma PlaybackFailureRestages(s: Session, clip: Audio)
    requires s.phase == Generating
    ensures Step(s, Synthesis(PlaybackFailed(clip))).next
         == s.(generation := s.generation + 1, staged := Some(clip), phase := RetryPrompt)
  {
  }

  /** `s` after a played attempt saves that attempt's clip, not an earlier
      one. */
  lemma LatestTakeIsSaved(s: Session, clip: Audio, command: string, name: string)
    requires s.phase == Generating && ParseCommand(command) == SaveTake && Strip(name) != ""
    ensures var s1 := Step(s, Synthesis(Played(clip))).next;
            var s2 := Step(s1, Line(command)).next;
            Step(s2, Line(name)).effect == Persist(Strip(name), clip)
  {
  }

  /** From the retry prompt or the top of the loop, the menu (and with it
      `s`) is reached only through an attempt that staged and played its own
      clip; until then the session stays between attempts and the retry
      prompt, or has stopped. */
  lemma {:induction false} NoMenuWithoutPlay(s: Session, es: seq<Event>)
    requires s.phase == RetryPrompt || s.phase == Generating || s.phase.Stopped?
    requires Feasible(s, es)
    requires forall i | 0 <= i < |es| :: !(es[i].Synthesis? && es[i].attempt.Played?)
    ensures var p := Run(s, es).phase;
            p == RetryPrompt || p == Generating || p.Stopped?
    decreases |es|
  {
    if |es| > 0 {
      NoMenuWithoutPlay(Step(s, es[0]).next, es[1..]);
    }
  }

  /** After a failed attempt anything but `y` leaves the loop and removes
      the temporary files; the session's fields are kept as they were. */
  lemma DeclinedRetryEnds(s: Session, answer: string)
    requires s.phase == RetryPrompt && !Affirmative(answer)
    ensures Step(s, Line(answer)) == Transition(s.(phase := Stopped(RetryDeclined)), Cleanup)
  {
  }

  /** `q` ends the session at once, removing the temporary files. */
  lemma QuitEnds(s: Session, command: string)
    requires s.phase == Menu && ParseCommand(command) == QuitSession
    ensures Step(s, Line(command)) == Transition(s.(phase := Stopped(QuitChosen)), Cleanup)
  {
  }

  /** `p` replays the staged clip and returns to the menu with the session
      exactly as it was; a player error is not caught. */
  lemma PlayAgainKeepsSession(s: Session, command: string)
    requires s.phase == Menu && ParseCommand(command) == PlayAgain
    ensures var t := Step(s, Line(command));
            && t.effect == Replay && t.next.phase == Replaying
            && Step(t.next, Playback(true)).next == s
            && Step(t.next, Playback(false)).next.phase == Stopped(Crashed(ReplayError))
  {
  }

  /** `s` returns to the menu with the session exactly as it was; it writes
      the staged clip to `recordings/<name>.mp3` when the stripped name is
      not empty (by `StripFacts`, when the answer is not all whitespace) and
      writes nothing otherwise. */
  lemma SaveKeepsSession(s: Session, command: string, name: string, store: Recordings.Store)
    requires s.phase == Menu && ParseCommand(command) == SaveTake && s.staged.Some?
    ensures var s1 := Step(s, Line(command)).next;
            var t := Step(s1, Line(name));
            && s1.phase == SavePrompt
            && t.next == s
            && (Strip(name) == "" ==> t.effect == Silent && Terminal.Record(store, t.effect) == store)
            && (Strip(name) != "" ==>
                  t.effect == Persist(Strip(name), s.staged.value)
                  && Terminal.Record(store, t.effect)
                     == store[Recordings.FileName(Strip(name)) := s.staged.value])
  {
  }

  /** An unrecognised answer only warns; the menu stays open and nothing
      changes. */
  lemma UnrecognisedKeepsSession(s: Session, command: string)
    requires s.phase == Menu && ParseCommand(command) == Unrecognised
    ensures Step(s, Line(command)) == Transition(s, Warn(InvalidChoice))
  {
  }

  /** `r` leaves the menu for a new attempt with everything else unchanged. */
  lemma RegenerateLeavesMenu(s: Session, command: string)
    requires s.phase == Menu && ParseCommand(command) == Regenerate
    ensures Step(s, Line(command)) == Transition(s.(phase := Generating), Silent)
  {
  }

  /** `n` with an empty answer overwrites the phrase with the empty string,
      keeps the counter and the menu; a following `r` then asks for the
      empty phrase. */
  lemma EmptyNewPhrase(s: Session, command: string, text: string, again: string, a: Attempt)
    requires s.phase == Menu && ParseCommand(command) == NewPhrase
    requires Strip(text) == ""
    requires ParseCommand(again) == Regenerate
    ensures var s1 := Step(s, Line(command)).next;
            var t := Step(s1, Line(text));
            var s3 := Step(t.next, Line(again)).next;
            && t.next == s.(phrase := "")
            && t.effect == Warn(NoPhraseEntered)
            && Step(s3, Synthesis(a)).effect.request == Request(s.generation + 1, "", s.voiceId, s.settings)
  {
  }

  /** `v` fetches the catalogue, asks for a number and always regenerates,
      with the picked voice or, when the answer picks none, the same one. A
      catalogue error is not caught. */
  lemma ChangeVoiceRegenerates(s: Session, command: string, voices: seq<Voice>, choice: string)
    requires s.phase == Menu && ParseCommand(command) == ChangeVoice
    ensures var t1 := Step(s, Line(command));
            var s2 := Step(t1.next, VoiceList(Some(voices))).next;
            var s3 := Step(s2, Line(choice)).next;
            && t1.effect == FetchVoices
            && Step(t1.next, VoiceList(None)).next.phase == Stopped(Crashed(CatalogError))
            && s2.phase == VoicePrompt(voices)
            && s3 == s.(voiceId := SelectVoice(voices, s.voiceId, choice), phase := Generating)
            && (AllSpace(choice) ==> s3 == s.(phase := Generating))
  {
    if AllSpace(choice) {
      SelectVoiceKeepsCurrent(voices, s.voiceId, choice);
    }
  }

  /** The value a settings prompt leaves in its field. */
  function Entered(current: real, e: Entry): (r: real)
    requires !e.NotNumeric?
  {
    if e.Blank? then current else Clamp(e.value)
  }

  /** `e` asks for stability, similarity and style in turn and always
      regenerates: each typed number is stored clamped into [0, 1], each
      blank answer keeps its field, speaker boost stays on. */
  lemma EditRegenerates(s: Session, command: string, e1: Entry, e2: Entry, e3: Entry)
    requires s.phase == Menu && ParseCommand(command) == EditSettings
    requires !e1.NotNumeric? && !e2.NotNumeric? && !e3.NotNumeric?
    ensures var s1 := Step(s, Line(command)).next;
            var s2 := Step(s1, Amount(e1)).next;
            var s3 := Step(s2, Amount(e2)).next;
            var s4 := Step(s3, Amount(e3)).next;
            && s4.phase == Generating
            && s4 == s.(settings := s4.settings, phase := Generating)
            && s4.settings.stability == Entered(s.settings.stability, e1)
            && s4.settings.similarityBoost == Entered(s.settings.similarityBoost, e2)
            && s4.settings.style == Entered(s.settings.style, e3)
            && s4.settings.useSpeakerBoost == s.settings.useSpeakerBoost
            && (Valid(s.settings) ==> Valid(s4.settings))
            && (e1.Blank? && e2.Blank? && e3.Blank? ==> s4 == s.(phase := Generating))
  {
    var s1 := Step(s, Line(command)).next;
    var s2 := Step(s1, Amount(e1)).next;
    assert s2.settings == Apply(s.settings, Stability, e1).value;
    var s3 := Step(s2, Amount(e2)).next;
    assert s3.settings == Apply(s2.settings, SimilarityBoost, e2).value;
    var s4 := Step(s3, Amount(e3)).next;
    assert s4.settings == Apply(s3.settings, Style, e3).value;
  }

  /** Text that `float()` rejects ends the program at that prompt. */
  lemma NonNumericCrashes(s: Session, f: Field)
    requires s.phase == SettingPrompt(f)
    ensures Step(s, Amount(NotNumeric)).next.phase == Stopped(Crashed(NotANumber))
  {
  }

  /** A session started normally never reads a staged clip that is not
      there, and its settings stay within [0, 1], however it continues. */
  lemma StartedRunsAreSafe(args: seq<string>, typed: string, es: seq<Event>)
    requires Start(args, typed).Begin?
    requires Feasible(Start(args, typed).session, es)
    ensures var s := Run(Start(args, typed).session, es);
            Valid(s.settings) && s.phase != Stopped(Crashed(MissingStagedAudio))
  {
    StartEstablishesInv(args, typed);
    RunPreservesInv(Start(args, typed).session, es);
  }
}

=== FILE: text.dfy ===
/**
 * The string operations the session relies on: Python's `str.strip()`,
 * `str.lower()` and `str.isdigit()` / `int()`, restricted to ASCII.
 */
module Text {

  /** The ASCII characters Python's `str.isspace()` accepts, hence the ones
      `str.strip()` removes: space, tab, line feed, vertical tab, form feed,
      carriage return and the separators 0x1c-0x1f. */
  predicate IsSpace(c: char) {
    c == ' ' || (9 <= c as int <= 13) || (28 <= c as int <= 31)
  }

  predicate AllSpace(s: string) {
    forall i | 0 <= i < |s| :: IsSpace(s[i])
  }

  /** No whitespace at either end: what `strip()` leaves behind. */
  predicate Tight(s: string) {
    |s| == 0 || (!IsSpace(s[0]) && !IsSpace(s[|s| - 1]))
  }

  /** Drops leading whitespace. */
  function TrimStart(s: string): (r: string)
    decreases |s|
  {
    if |s| > 0 && IsSpace(s[0]) then TrimStart(s[1..]) else s
  }

  /** Drops trailing whitespace. */
  function TrimEnd(s: string): (r: string)
    decreases |s|
  {
    if |s| > 0 && IsSpace(s[|s| - 1]) then TrimEnd(s[..|s| - 1]) else s
  }

  /** Python's `s.strip()`. */
  function Strip(s: string): (r: string) {
    TrimEnd(TrimStart(s))
  }

  /** `TrimStart` keeps a suffix, everything it drops is whitespace, and what
      it keeps does not start with whitespace. */
  lemma {:induction false} TrimStartFacts(s: string)
    ensures var r := TrimStart(s);
            && |r| <= |s| && r == s[|s| - |r|..]
            && AllSpace(s[..|s| - |r|])
            && (|r| > 0 ==> !IsSpace(r[0]))
    decreases |s|
  {
    if |s| > 0 && IsSpace(s[0]) {
      var r := TrimStart(s[1..]);
      TrimStartFacts(s[1..]);
      assert s[..|s| - |r|] == [s[0]] + s[1..][..|s| - 1 - |r|];
    }
  }

  /** `TrimEnd` keeps a prefix, everything it drops is whitespace, and what
      it keeps does not end with whitespace. */
  lemma {:induction false} TrimEndFacts(s: string)
    ensures var r := TrimEnd(s);
            && |r| <= |s| && r == s[..|r|]
            && AllSpace(s[|r|..])
            && (|r| > 0 ==> !IsSpace(r[|r| - 1]))
    decreases |s|
  {
    if |s| > 0 && IsSpace(s[|s| - 1]) {
      var r := TrimEnd(s[..|s| - 1]);
      TrimEndFacts(s[..|s| - 1]);
      assert s[|r|..] == s[..|s| - 1][|r|..] + [s[|s| - 1]];
    }
  }

  /** `strip()` leaves no whitespace at either end, never lengthens, and
      yields the empty string exactly when `s` is all whitespace. */
  lemma StripFacts(s: string)
    ensures Tight(Strip(s))
    ensures |Strip(s)| <= |s|
    ensures |Strip(s)| == 0 <==> AllSpace(s)
  {
    TrimStartFacts(s);
    TrimEndFacts(TrimStart(s));
  }

  /** Stripping is idempotent: a stripped string is left as it is. */
  lemma StripTight(s: string)
    requires Tight(s)
    ensures Strip(s) == s
  {
  }

  lemma StripIdempotent(s: string)
    ensures Strip(Strip(s)) == Strip(s)
  {
    StripFacts(s);
    StripTight(Strip(s));
  }

  lemma {:induction false} TrimStartPadded(pre: string, y: string)
    requires AllSpace(pre)
    requires |y| > 0 && !IsSpace(y[0])
    ensures TrimStart(pre + y) == y
    decreases |pre|
  {
    if |pre| == 0 {
      assert pre + y == y;
    } else {
      assert (pre + y)[0] == pre[0];
      assert (pre + y)[1..] == pre[1..] + y;
      TrimStartPadded(pre[1..], y);
    }
  }

  lemma {:induction false} TrimEndPadded(y: string, post: string)
    requires AllSpace(post)
    requires |y| > 0 && !IsSpace(y[|y| - 1])
    ensures TrimEnd(y + post) == y
    decreases |post|
  {
    if |post| == 0 {
      assert y + post == y;
    } else {
      var n := |y + post|;
      assert (y + post)[n - 1] == post[|post| - 1];
      assert (y + post)[..n - 1] == y + post[..|post| - 1];
      TrimEndPadded(y, post[..|post| - 1]);
    }
  }

  /** Whitespace around a non-empty tight string is exactly what `strip()`
      removes, whatever its amount. */
  lemma StripPadded(pre: string, x: string, post: string)
    requires AllSpace(pre) && AllSpace(post)
    requires |x| > 0 && Tight(x)
    ensures Strip(pre + x + post) == x
  {
    assert (x + post)[0] == x[0];
    assert pre + x + post == pre + (x + post);
    TrimStartPadded(pre, x + post);
    TrimEndPadded(x, post);
  }

  /** Python's `c.lower()` on ASCII letters; other characters are kept. */
  function LowerChar(c: char): (l: char) {
    if 'A' <= c <= 'Z' then (c as int + 32) as char else c
  }

  function Lower(s: string): (r: string)
    ensures |r| == |s|
    ensures forall i | 0 <= i < |s| :: r[i] == LowerChar(s[i])
  {
    seq(|s|, i requires 0 <= i < |s| => LowerChar(s[i]))
  }

  /** A one-letter command matches after lower-casing exactly when the
      typed text is that letter in either case. */
  lemma LowerIsLetter(s: string, c: char)
    requires 'a' <= c <= 'z'
    ensures Lower(s) == [c] <==> (s == [c] || s == [(c as int - 32) as char])
  {
    if Lower(s) == [c] {
      assert LowerChar(s[0]) == c;
    }
  }

  predicate IsDigit(c: char) {
    '0' <= c <= '9'
  }

  predicate AllDigits(s: string) {
    forall i | 0 <= i < |s| :: IsDigit(s[i])
  }

  /** What `s and s.isdigit()` accepts: a non-empty run of digits. */
  predicate IsNumeral(s: string) {
    |s| > 0 && AllDigits(s)
  }

  function DigitValue(c: char): (r: nat)
    requires IsDigit(c)
  {
    c as int - '0' as int
  }

  function DigitChar(d: nat): (c: char)
    requires d < 10
    ensures IsDigit(c) && DigitValue(c) == d
  {
    ('0' as int + d) as char
  }

  /** Python's `int(s)` on a digit string, leading zeros allowed. */
  function NumeralValue(s: string): (r: nat)
    requires AllDigits(s)
    decreases |s|
  {
    if |s| == 0 then 0
    else NumeralValue(s[..|s| - 1]) * 10 + DigitValue(s[|s| - 1])
  }

  /** The decimal spelling of `n` without leading zeros, as `str(n)` writes it. */
  function Numeral(n: nat): (r: string)
    ensures IsNumeral(r)
    ensures Tight(r)
    decreases n
  {
    if n < 10 then [DigitChar(n)] else Numeral(n / 10) + [DigitChar(n % 10)]
  }

  /** Reading back the spelling of `n` gives `n`. */
  lemma {:induction false} NumeralRoundTrip(n: nat)
    ensures NumeralValue(Numeral(n)) == n
    decreases n
  {
    if n >= 10 {
      var s := Numeral(n);
      assert s[..|s| - 1] == Numeral(n / 10);
      NumeralRoundTrip(n / 10);
    }
  }
}

=== FILE: tuning.dfy ===
/**
 * The terminal's voice-settings record (the `settings` dict of main.py) and
 * the clamp its editor applies to every value typed in.
 */
module Tuning {
  import opened Common

  datatype Field = Stability | SimilarityBoost | Style

  datatype Settings = Settings(stability: real, similarityBoost: real, style: real, useSpeakerBoost: bool)

  /** The values the session starts with. */
  const Defaults := Settings(0.5, 0.75, 0.0, true)

  /** Python's two-argument `min`: the first argument unless the second is smaller. */
  function Min(a: real, b: real): (r: real) {
    if b < a then b else a
  }

  /** Python's two-argument `max`: the first argument unless the second is larger. */
  function Max(a: real, b: real): (r: real) {
    if b > a then b else a
  }

  predicate InUnit(x: real) {
    0.0 <= x <= 1.0
  }

  /** `max(0.0, min(1.0, x))`: a value inside [0, 1] is kept, one below is
      raised to 0 and one above is lowered to 1. */
  function Clamp(x: real): (r: real)
    ensures InUnit(r)
    ensures InUnit(x) ==> r == x
    ensures x < 0.0 ==> r == 0.0
    ensures x > 1.0 ==> r == 1.0
  {
    Max(0.0, Min(1.0, x))
  }

  /** Every tunable value lies in [0, 1] and speaker boost is on. */
  predicate Valid(s: Settings) {
    InUnit(s.stability) && InUnit(s.similarityBoost) && InUnit(s.style) && s.useSpeakerBoost
  }

  function Get(s: Settings, f: Field): (r: real) {
    match f
    case Stability => s.stability
    case SimilarityBoost => s.similarityBoost
    case Style => s.style
  }

  function Set(s: Settings, f: Field, x: real): (r: Settings) {
    match f
    case Stability => s.(stability := x)
    case SimilarityBoost => s.(similarityBoost := x)
    case Style => s.(style := x)
  }

  /** One answer at a settings prompt, after `strip()`: nothing typed, a
      number `float()` accepts, or text it rejects. */
  datatype Entry = Blank | Number(value: real) | NotNumeric

  /** One prompt of the editor. A blank answer leaves the record exactly as
      it was; a number is clamped into [0, 1] and stored in that field only;
      non-numeric text makes `float()` raise, which nothing catches (None). */
  function Apply(s: Settings, f: Field, e: Entry): (r: Option<Settings>)
    ensures e.Blank? ==> r == Some(s)
    ensures e.NotNumeric? ==> r.None?
    ensures e.Number? ==> r.Some? && Get(r.value, f) == Clamp(e.value)
    ensures r.Some? ==> forall g | g != f :: Get(r.value, g) == Get(s, g)
    ensures r.Some? ==> r.value.useSpeakerBoost == s.useSpeakerBoost
    ensures r.Some? && Valid(s) ==> Valid(r.value)
  {
    match e
    case Blank => Some(s)
    case Number(x) => Some(Set(s, f, Clamp(x)))
    case NotNumeric => None
  }

  lemma DefaultsValid()
    ensures Valid(Defaults)
  {
  }
}

=== FILE: web.dfy ===
/**
 * The web front-end of app.py: the voice catalogue as label -> id options,
 * the slider record, and the generate / save button handlers acting on the
 * page's session state (`audio_data`, `last_phrase`).
 */
module Web {
  import opened Common
  import opened Text
  import opened Catalog
  import Recordings

  /** One row of `get_voices`: `(voice_id, name, category)`. */
  datatype CatalogEntry = CatalogEntry(voiceId: string, name: string, category: string)

  /** `get_voices`: one row per provider voice, in the provider's order, the
      category defaulting to "unknown". */
  function Entries(voices: seq<Voice>): (r: seq<CatalogEntry>)
    ensures |r| == |voices|
    ensures forall i | 0 <= i < |r| ::
              r[i].voiceId == voices[i].voiceId && r[i].name == voices[i].name
              && (voices[i].category.None? ==> r[i].category == "unknown")
              && (voices[i].category.Some? ==> r[i].category == voices[i].category.value)
  {
    seq(|voices|, i requires 0 <= i < |voices| =>
      CatalogEntry(voices[i].voiceId, voices[i].name, CategoryOf(voices[i])))
  }

  /** The text shown in the voice picker: `"name (category)"`. */
  function Label(e: CatalogEntry): (r: string) {
    e.name + " (" + e.category + ")"
  }

  /** True when no row after position `i` carries the same label. */
  ghost predicate LastWithLabel(entries: seq<CatalogEntry>, i: int)
    requires 0 <= i < |entries|
  {
    forall j | i < j < |entries| :: Label(entries[j]) != Label(entries[i])
  }

  /** `voice_options`: built by a dict comprehension, so every label is a key
      and every key is some row's label. */
  function Options(entries: seq<CatalogEntry>): (m: map<string, string>)
    ensures forall i | 0 <= i < |entries| :: Label(entries[i]) in m
    ensures forall k | k in m :: exists i | 0 <= i < |entries| :: Label(entries[i]) == k
    decreases |entries|
  {
    if |entries| == 0 then map[]
    else
      var init := entries[..|entries| - 1];
      var last := entries[|entries| - 1];
      assert forall i | 0 <= i < |init| :: init[i] == entries[i];
      Options(init)[Label(last) := last.voiceId]
  }

  /** A label shared by several rows maps to the id of the last of them. */
  lemma {:induction false} OptionsLastWins(entries: seq<CatalogEntry>, i: int)
    requires 0 <= i < |entries| && LastWithLabel(entries, i)
    ensures Options(entries)[Label(entries[i])] == entries[i].voiceId
    decreases |entries|
  {
    var n := |entries|;
    if i < n - 1 {
      var init := entries[..n - 1];
      assert init[i] == entries[i];
      assert Label(entries[n - 1]) != Label(entries[i]);
      assert LastWithLabel(init, i) by {
        forall j | i < j < |init|
          ensures Label(init[j]) != Label(init[i])
        {
          assert init[j] == entries[j];
        }
      }
      OptionsLastWins(init, i);
    }
  }

  /** With distinct labels, every row can be picked and yields its own id. */
  lemma DistinctLabelsPickTheirVoice(entries: seq<CatalogEntry>, i: int)
    requires forall a, b | 0 <= a < b < |entries| :: Label(entries[a]) != Label(entries[b])
    requires 0 <= i < |entries|
    ensures Options(entries)[Label(entries[i])] == entries[i].voiceId
  {
    assert LastWithLabel(entries, i);
    OptionsLastWins(entries, i);
  }

  /** Two rows with the same label: the earlier one cannot be picked. */
  lemma LaterDuplicateWins(entries: seq<CatalogEntry>, i: int, j: int)
    requires 0 <= i < j < |entries| && Label(entries[i]) == Label(entries[j])
    requires LastWithLabel(entries, j)
    ensures Options(entries)[Label(entries[i])] == entries[j].voiceId
  {
    OptionsLastWins(entries, j);
  }

  /** The four sliders of the sidebar. */
  datatype Sliders = Sliders(stability: real, similarity: real, style: real, speed: real)

  /** The slider ranges: three values in [0, 1], speed in [0.7, 1.2]. */
  predicate WithinRanges(s: Sliders) {
    && 0.0 <= s.stability <= 1.0
    && 0.0 <= s.similarity <= 1.0
    && 0.0 <= s.style <= 1.0
    && 0.7 <= s.speed <= 1.2
  }

  /** The values a slider widget can hand back; the witness is the sliders'
      starting positions. */
  type SliderValues = s: Sliders | WithinRanges(s) witness Sliders(0.5, 0.75, 0.0, 1.0)

  /** What one press of Generate or Regenerate sends to the provider. */
  datatype WebRequest = WebRequest(text: string, voiceId: string, settings: SliderValues)

  /** The keys of `st.session_state` this page uses; absent before the first
      successful generation. */
  datatype PageState = PageState(audio: Option<Audio>, lastPhrase: Option<string>)

  const FreshPage := PageState(None, None)

  datatype Notice =
    | Quiet
    | EnterPhrase       // "Please enter a phrase to generate."
    | GenerationError   // the provider call raised
    | NoVoiceSelected   // empty catalogue: the picker yields no label and the lookup raises
    | SavedTo(file: string)
    | EnterFilename     // "Enter a filename"

  datatype Reaction = Reaction(state: PageState, request: Option<WebRequest>, notice: Notice)

  /** The Generate and Regenerate buttons share this handler. A phrase that
      is blank after `strip()` only warns. Otherwise the stripped phrase is
      sent with the picked voice and the sliders; on success the clip and the
      stripped phrase are stored together, on failure neither changes. */
  function OnGenerate(
    st: PageState, phrase: string, picked: Option<string>, options: map<string, string>,
    sliders: SliderValues, result: Option<Audio>): (r: Reaction)
    requires picked.Some? ==> picked.value in options
    ensures Strip(phrase) == "" ==> r == Reaction(st, None, EnterPhrase)
    ensures r.request.Some? ==>
              && r.request.value.text == Strip(phrase) && r.request.value.text != ""
              && picked.Some? && r.request.value.voiceId == options[picked.value]
              && r.request.value.settings == sliders && WithinRanges(r.request.value.settings)
    ensures r.state != st ==> r.request.Some? && result.Some? && r.state == PageState(result, Some(Strip(phrase)))
    ensures Strip(phrase) != "" && picked.Some? ==>
              r.request.Some? && (result.Some? ==> r.state == PageState(result, Some(Strip(phrase))))
    ensures result.None? ==> r.state == st
  {
    var text := Strip(phrase);
    if text == "" then Reaction(st, None, EnterPhrase)
    else if picked.None? then Reaction(st, None, NoVoiceSelected)
    else
      var request := WebRequest(text, options[picked.value], sliders);
      match result
      case Some(audio) => Reaction(PageState(Some(audio), Some(text)), Some(request), Quiet)
      case None => Reaction(st, Some(request), GenerationError)
  }

  /** The player and the save section are drawn only once a clip exists. */
  predicate SaveVisible(st: PageState) {
    st.audio.Some?
  }

  datatype SaveReaction = SaveReaction(store: Recordings.Store, notice: Notice)

  /** The Save button: a stripped non-empty name writes the current clip to
      `recordings/<name>.mp3`; otherwise only a warning is shown. */
  function OnSave(st: PageState, name: string, store: Recordings.Store): (r: SaveReaction)
    requires SaveVisible(st)
    ensures Strip(name) == "" ==> r == SaveReaction(store, EnterFilename)
    ensures Strip(name) != "" ==>
              && r.notice == SavedTo(Recordings.FileName(Strip(name)))
              && r.store == Recordings.Save(store, Strip(name), st.audio.value)
  {
    var file := Strip(name);
    if file == "" then SaveReaction(store, EnterFilename)
    else SaveReaction(Recordings.Save(store, file, st.audio.value), SavedTo(Recordings.FileName(file)))
  }

  datatype Button = GenerateButton | RegenerateButton

  /** One user action on the page. A save click can only happen while the
      save section is drawn. */
  datatype WebEvent =
    | Press(button: Button, phrase: string, picked: Option<string>, sliders: SliderValues, result: Option<Audio>)
    | SaveClick(name: string)

  datatype Page = Page(state: PageState, store: Recordings.Store)

  /** Whether the page can receive the event: the picker offers only the
      options' labels, and the save button exists only when a clip does. */
  predicate Offered(p: Page, options: map<string, string>, e: WebEvent) {
    match e
    case Press(_, _, picked, _, _) => picked.Some? ==> picked.value in options
    case SaveClick(_) => SaveVisible(p.state)
  }

  function WebStep(p: Page, options: map<string, string>, e: WebEvent): (q: Page)
    requires Offered(p, options, e)
  {
    match e
    case Press(_, phrase, picked, sliders, result) =>
      p.(state := OnGenerate(p.state, phrase, picked, options, sliders, result).state)
    case SaveClick(name) =>
      p.(store := OnSave(p.state, name, p.store).store)
  }

  /** What the page's session state always satisfies: the clip and the
      phrase are present together, and the phrase is stripped and non-empty. */
  predicate PageInv(st: PageState) {
    && (st.audio.Some? <==> st.lastPhrase.Some?)
    && (st.lastPhrase.Some? ==> st.lastPhrase.value != "" && Strip(st.lastPhrase.value) == st.lastPhrase.value)
  }

  lemma WebStepPreservesInv(p: Page, options: map<string, string>, e: WebEvent)
    requires PageInv(p.state) && Offered(p, options, e)
    ensures PageInv(WebStep(p, options, e).state)
    ensures forall f | f in p.store :: f in WebStep(p, options, e).store
  {
    if e.Press? {
      StripIdempotent(e.phrase);
    }
  }

  predicate WebFeasible(p: Page, options: map<string, string>, es: seq<WebEvent>)
    decreases |es|
  {
    |es| == 0 || (Offered(p, options, es[0]) && WebFeasible(WebStep(p, options, es[0]), options, es[1..]))
  }

  function WebRun(p: Page, options: map<string, string>, es: seq<WebEvent>): (q: Page)
    requires WebFeasible(p, options, es)
    decreases |es|
  {
    if |es| == 0 then p else WebRun(WebStep(p, options, es[0]), options, es[1..])
  }

  /** Over any sequence of actions the invariant holds and no saved
      recording disappears. */
  lemma {:induction false} WebRunPreservesInv(p: Page, options: map<string, string>, es: seq<WebEvent>)
    requires PageInv(p.state) && WebFeasible(p, options, es)
    ensures PageInv(WebRun(p, options, es).state)
    ensures p.store.Keys <= WebRun(p, options, es).store.Keys
    decreases |es|
  {
    if |es| > 0 {
      WebStepPreservesInv(p, options, es[0]);
      WebRunPreservesInv(WebStep(p, options, es[0]), options, es[1..]);
    }
  }

  /** The page as first loaded: no clip and no phrase in the session state. */
  lemma FreshPageValid()
    ensures PageInv(FreshPage)
  {
  }

  /** From the page as first loaded, any sequence of offered actions keeps
      the clip and phrase paired, the phrase stripped and non-empty, and
      every recording already on disk. */
  lemma StartedPagesAreSafe(store: Recordings.Store, options: map<string, string>, es: seq<WebEvent>)
    requires WebFeasible(Page(FreshPage, store), options, es)
    ensures var p := WebRun(Page(FreshPage, store), options, es);
            PageInv(p.state) && store.Keys <= p.store.Keys
  {
    FreshPageValid();
    WebRunPreservesInv(Page(FreshPage, store), options, es);
  }

  /** Corollary of `WebStep`: Generate and Regenerate act identically. */
  lemma ButtonsAgree(p: Page, options: map<string, string>, phrase: string, picked: Option<string>,
                     sliders: SliderValues, result: Option<Audio>)
    requires picked.Some? ==> picked.value in options
    ensures WebStep(p, options, Press(GenerateButton, phrase, picked, sliders, result))
         == WebStep(p, options, Press(RegenerateButton, phrase, picked, sliders, result))
  {
  }

  /** Any run of failed generations and save clicks keeps the clip and
      phrase of the last successful generation on the page: only a
      generation that returned audio replaces them. */
  lemma {:induction false} FailuresRetainAudio(p: Page, options: map<string, string>, es: seq<WebEvent>)
    requires WebFeasible(p, options, es)
    requires forall i | 0 <= i < |es| :: es[i].SaveClick? || es[i].result.None?
    ensures WebRun(p, options, es).state == p.state
    decreases |es|
  {
    if |es| > 0 {
      FailuresRetainAudio(WebStep(p, options, es[0]), options, es[1..]);
    }
  }

  /** Corollary of `OnGenerate`: a failed generation keeps the earlier clip
      and its phrase on the page. */
  lemma FailureRetainsAudio(st: PageState, phrase: string, picked: Option<string>,
                            options: map<string, string>, sliders: SliderValues)
    requires picked.Some? ==> picked.value in options
    ensures OnGenerate(st, phrase, picked, options, sliders, None).state == st
  {
  }
}
